=== FILE: README.md ===
# Reminder bot: the creation wizard and the delivery pass

This project models the two stateful parts of a Telegram reminder bot
(`main.py`) and proves properties about them:

- **The creation wizard.** The "add reminder" button (`callback_query`)
  opens a per-user session. `handle_text_messages` then collects four text
  messages, one per step (texts that are `/start` or `/help` commands go to
  the command handlers instead and never reach it): a title, a description (`-` means none), a date
  in `%d.%m.%Y` and a time in `%H:%M`. Each step either advances or
  re-prompts and leaves everything as it was. After a good time, one
  record is added to the store and the session ends.
- **The delivery pass** (`check_reminders`). It reads the pending
  reminders and parses each one's date and time. Every reminder whose
  moment is at or before now gets a message sent to its owner, and the
  reminder is marked sent only after the send succeeded. A failed send is
  swallowed, the pass moves on, and the reminder stays unsent and due in
  the store. A row whose date or time cannot be read raises an error that
  nothing catches (main.py:277): it ends the pass, leaves
  `schedule.run_pending()` (main.py:295) and ends the scheduler thread, so
  no later pass runs at all.

Modules:

- `Optional` holds the option type.
- `Calendar` models dates, times, their order, and the two `strptime`
  formats. It follows CPython's field patterns:
  - `%d` is `3[01]|[12]\d|0[1-9]|[1-9]| [1-9]`;
  - `%m` is `1[0-2]|0[1-9]|[1-9]`;
  - `%Y` is four digits;
  - `%H` is `2[0-3]|[0-1]\d|\d`;
  - `%M` is `[0-5]\d|\d`.

  The whole text must match, and the date must exist (year 1 to 9999).
  Formatting is included as the inverse of parsing.
- `Reminders` holds the record and the store: a map from id to record,
  plus the next id.
- `Wizard` holds the sessions, the step function `Step`, runs of messages
  (`Feed`), and the invariant the wizard keeps.
- `Scheduler` holds the pass as a recursive function `Scan`, reference
  views of a pass (due rows, attempts), the loop `CheckReminders` proved
  equal to `Scan`, and properties across passes.

The clock reading `now` is a parameter: one reading per wizard step and
one per pass. The messenger in the pass is an oracle `seq<bool>`. The
k-th send attempt succeeds exactly when the k-th entry is true, and
attempts beyond its end fail.

The title is stored without any check, an empty text included. The pass
tests each pending row's moment itself (main.py:277-279); the model takes
the pending rows as a parameter and tests the moment as the code does.

## Model

| member | source | states |
|---|---|---|
| Calendar.ParseDate | main.py:210 | a date text the program accepts denotes a date that exists on the calendar, in years 1 to 9999 |
| Calendar.ParseDateSpec | main.py:210 | the date parser accepts a text exactly when it is day, month and year fields joined by dots, each matching its `strptime` pattern, spelling an existing date |
| Calendar.ParseFormatDate | main.py:205-210 | every existing date written as `DD.MM.YYYY` is read back as the same date |
| Calendar.ParseTime | main.py:232 | an accepted time text denotes a valid time of day with zero seconds and microseconds |
| Calendar.ParseTimeSpec | main.py:232 | the time parser accepts a text exactly when it is hour and minute fields joined by a colon, each matching its `strptime` pattern |
| Calendar.ParseFormatTime | main.py:222-232 | every whole minute of the day written as `HH:MM` is read back as the same time |
| Calendar.ParsedTimeAtOrBefore | main.py:236-237 | comparing a parsed time with the clock decides at minute precision: the current minute counts as not after now |
| Reminders.Add | main.py:244-250 | the new record sits under a fresh id, the key set grows by exactly that id, and every earlier record is unchanged |
| Reminders.MarkSent | main.py:286 | only the given record's sent flag changes; the ids and all other records stay the same |
| Wizard.StartSession | main.py:83-84 | the user is put at the title step, replacing any session they had; other users' sessions are kept |
| Wizard.DescriptionOf | main.py:200 | the skip token `-` stores an empty description; any other text is stored as typed |
| Wizard.Step | main.py:176-267 | a message without a session changes nothing; other users' sessions never change; a rejection keeps the session and the store; only a successful time step writes, and it adds exactly the collected record and ends the session |
| Wizard.TitleStep | main.py:191-197 | the title is kept as typed and the wizard moves to the description |
| Wizard.DescriptionStep | main.py:199-206 | the description, or "" for `-`, is kept and the wizard moves to the date |
| Wizard.DateStep | main.py:208-228 | the wizard moves to the time step exactly when the date parses and is not before today; a bad date and a past date each leave the session and the store unchanged |
| Wizard.TodayIsAccepted | main.py:211 | a date equal to today's is accepted |
| Wizard.TimeStep | main.py:230-252 | with the program's check, a time is refused exactly when the stored date is today and the time is not after the current minute; otherwise exactly one record is stored and the session ends |
| Wizard.TimeStepRefuses | main.py:235-242 | a refused time leaves the session, with all collected fields, and the store as they were |
| Wizard.StartPreservesWellFormed | main.py:83-84 | starting a session keeps the sessions and the store well formed |
| Wizard.StepPreservesWellFormed | main.py:176-267 | every step keeps the invariant: a session at the time step holds a date that parses, every stored record's date and time parse, and the next id is fresh |
| Wizard.BadTimeMeansBadText | main.py:230-267 | in a reachable state the second parse of the stored date never fails, so "bad time" happens exactly when the typed time does not parse |
| Wizard.Feed | main.py:176-267 | a run of messages from one user leaves other users' sessions alone, keeps every earlier record, and adds only unsent records owned by that user |
| Wizard.FirstThreeSteps | main.py:191-223 | title, description and a date not before today bring a new session to the time step with the fields collected |
| Wizard.CompleteWizard | main.py:191-252 | four acceptable answers after "add reminder" store exactly one unsent record holding them and end the session |
| Wizard.RefusedAtTime | main.py:230-242 | a refused time at the end of a run stores nothing and keeps every collected field |
| Wizard.PayRentExample | main.py:191-252 | the run "Pay rent", "-", "01.01.2099", "09:00" stores one unsent reminder with an empty description |
| Wizard.PastReminderAcrossMidnight | main.py:208-252 | with the program's check, a date typed at 23:59 and the time "10:00" typed at 00:01 the next day store a reminder whose moment has already passed |
| Wizard.MidnightRefusedByWholeStamp | main.py:230-242 | comparing the whole date and time refuses that same run at the time step and keeps the session |
| Wizard.WholeStampNeverStoresPast | main.py:230-252 | comparing the whole date and time, a record the time step stores lies strictly after that message's clock reading |
| Wizard.WholeStampRunStoresOnlyFuture | main.py:208-252 | comparing the whole date and time, every record a run of messages stores was added by one message of the run (absent before it, present after it) and lies strictly after that message's clock reading |
| Wizard.InitialWellFormed | main.py:83-84 | the state before any message, with no sessions and an empty store, is well formed |
| Scheduler.StampOf | main.py:277 | a row's date and time can be read exactly when the record's date and time texts both parse |
| Scheduler.NoticeFor | main.py:280-282 | the reminder message goes to the owner with the title, and carries the description exactly when it is not empty |
| Scheduler.Scan | main.py:269-288 | a pass changes only sent flags; a record ends up sent exactly when it was sent before or the pass marked it |
| Scheduler.ScanStops | main.py:277 | a first row whose date or time cannot be read ends the pass with nothing sent and nothing written |
| Scheduler.ScanSkips | main.py:279 | a first row that is not yet due is passed over without a send |
| Scheduler.ScanAttempts | main.py:279-288 | a due first row is sent; it is marked when the send succeeds and left alone when it fails; the pass goes on with the next row either way |
| Scheduler.SendThenMark | main.py:284-286 | in the trace of a pass every mark directly follows a successful send of the same reminder, and every successful send is directly followed by its mark |
| Scheduler.AbortsIffUnreadable | main.py:274-277 | the pass stops early, with an error nothing catches, exactly when some pending row's date or time cannot be read |
| Scheduler.ScanKeepsWellFormed | main.py:274-288 | a pass keeps the wizard's invariant, so wizard steps and passes may interleave and every reachable state is well formed |
| Scheduler.ScanUpToUnreadable | main.py:274-288 | a pass over readable rows, then an unreadable one, then anything, has the same effects as the pass over the readable rows alone, and stops there; the statements about readable rows apply to what was done before the stop |
| Scheduler.StoredRecordsNeverAbort | main.py:274-277 | over rows read from a store the wizard keeps well formed, the pass never stops early |
| Scheduler.AttemptsAreDueRows | main.py:274-288 | the send attempts of a pass are exactly the due rows, in order, and the k-th attempt succeeds as the messenger says, whatever earlier attempts did |
| Scheduler.SentIffDueAndDelivered | main.py:274-288 | a record ends the pass sent exactly when it was sent before, or it is a due row whose send succeeded; rows not due and failed sends keep their flag |
| Scheduler.DeliveredNeverDueAgain | main.py:284-286 | a reminder whose message went out is marked, so it is no longer among the store's unsent and due reminders at any later time |
| Scheduler.UndeliveredStaysDue | main.py:284-288 | a due reminder whose sends all failed stays unsent and due in the store at any later time |
| Scheduler.CallIsDueAtTwo | main.py:277-279 | a reminder for 13:59 on 25.12.2024 is due at 14:00 that day |
| Scheduler.CallDeliveredAtTwo | main.py:279-286 | when its send succeeds, that reminder ends the pass marked sent |
| Scheduler.CallFailedAtTwo | main.py:284-288 | when its send fails, that reminder is still the one unsent and due reminder in the store after the pass |
| Scheduler.CheckReminders | main.py:269-288 | the loop over the pending rows, with its read, due test and the guarded send-then-mark in `SendDue`, computes the same store, trace and early stop as the pass `Scan` |
| Scheduler.SendDue | main.py:284-288 | one due row: the send is attempted, the row is marked exactly when the send succeeded, a failure leaves the store as it was, and the messenger moves on by one attempt |

## Findings

| source | as written | input that shows it | evidently intended | confidence | as-written member | corrected member |
|---|---|---|---|---|---|---|
| main.py:230-242 | The time step only refuses a time when the stored date equals today's date. The date itself was checked against the clock at the date step, so it may have become yesterday by the time step. | The date "25.12.2024" is typed at 23:59 on 25.12.2024. The time "10:00" is typed at 00:01 on 26.12.2024. The reminder is stored for a moment already past. | A stored reminder lies after the moment it was created. Compare the whole date and time with now, as the delivery pass does at main.py:279. | not executed | Wizard.PastReminderAcrossMidnight | Wizard.WholeStampRunStoresOnlyFuture |

The wizard takes the check as a parameter: `SameDayOnly` is the code as
written and `WholeStamp` is the corrected comparison. The members that
take the check as a parameter hold for both checks: `Step`, `Feed`,
`TitleStep`, `DescriptionStep`, `DateStep`, `TodayIsAccepted`,
`TimeStepRefuses`, `StepPreservesWellFormed`, `BadTimeMeansBadText`,
`FirstThreeSteps`, `CompleteWizard`, `RefusedAtTime` and `PayRentExample`.
`Wizard.TimeStep` and `Wizard.PastReminderAcrossMidnight` are statements
about `SameDayOnly` only. `Wizard.MidnightRefusedByWholeStamp`,
`Wizard.WholeStampNeverStoresPast` and `Wizard.WholeStampRunStoresOnlyFuture`
are statements about `WholeStamp` only; the midnight run shows that the last
two fail for `SameDayOnly`. `Wizard.WholeStampNeverStoresPast` is the
per-message form of the corrected property; `Wizard.WholeStampRunStoresOnlyFuture`
extends it to whole runs, naming for each new record the message that stored it.

## Left out

- Telegram transport, message texts, Markdown, keyboards, and the
  `/start`, `/help`, list, view and delete handlers (main.py:19-174). These
  are presentation and I/O. A reply is modelled as its kind only.
- Wizard.Step: the `/start` and `/help` handlers (main.py:50 and 61) are
  registered before `handle_text_messages`, and the messenger library hands
  a message only to the first handler that matches. A text whose first
  word is `/start` or `/help` (also with `@botname`) therefore gets the
  menu or the help text and leaves the session as it was. `Step` and
  `Feed` model only the texts that reach `handle_text_messages`, so
  `Wizard.TitleStep`, `Wizard.DescriptionStep` and the runs hold for those
  texts only.
- The confirmation message (main.py:254-262) reads the session after it
  was deleted, so it always shows the default title and no date. It is
  display only and is not modelled.
- The store engine (`DB_Manager`) is not part of this model. The store is
  a map from id to record. Ownership checks are not claimed. Reminders.MarkSent
  treats an id that is not stored as a no-op; that is a modelling choice,
  not a claim about `mark_reminder_sent`. A store failure inside
  `add_reminder` is not modelled.
- Two assumptions about the store that its hidden code would have to
  confirm: `add_reminder` (main.py:244-250) stores a new record with its
  sent flag false, and `get_pending_reminders` (main.py:271) returns
  exactly the stored records whose sent flag is false. The second is what
  turns "stays unsent and due in the store" into "found again by the next
  pass" and "marked" into "not sent twice". `Scheduler.Scan` itself takes
  the pending rows as a parameter and does not depend on the query.
- The scheduler loop, `time.sleep` and the daemon thread (main.py:290-306):
  one pass of `check_reminders` is modelled. Statements about later passes
  assume no earlier pass stopped on an unreadable row, since such a pass
  ends the thread.
- Concurrency: the bot handles messages on its polling workers while the
  scheduler thread runs (main.py:301-306). The model handles messages one
  at a time, in order, and runs a pass between messages.
- The log line for a failed send (main.py:288) is recorded as a
  `SendFailed` event instead.
- The clock: `now` is one reading per step, whereas the time step reads
  the clock twice (main.py:235 and 237).
- Calendar.ParseDate: Python's `\d` also matches non-ASCII decimal digits.
  The model accepts ASCII digits only.
- Calendar.ParseTime: Python's `\d` also matches non-ASCII decimal digits.
  The model accepts ASCII digits only.
- Scheduler.StampOf: the pass parses `"{date} {time}"` with one combined
  format. Its `\s+` would also accept extra whitespace between the two
  fields. The model parses the two stored texts separately, which agrees
  on every record the wizard stores.
- Scheduler.Scan: an exception other than the send's (for example from
  the store while marking) is not modelled. Running out of oracle entries
  counts as a failed send.

=== FILE: calendar.dfy ===
/** Calendar dates, times of day and the two `datetime.strptime` formats the
    reminder wizard accepts: `%d.%m.%Y` for dates and `%H:%M` for times.

    `strptime` turns a format into a regular expression, matches it at the
    start of the text and then demands that nothing is left over; the fields
    become `datetime` values, which rejects dates that do not exist on the
    calendar. None of the field patterns can match the separator (`.` or `:`),
    so the text splits uniquely at the first separator, which is how the
    parsers below read it. */
module Calendar {
  import opened Optional

  /** A `datetime.date`. */
  datatype Date = Date(year: int, month: int, day: int)

  /** A `datetime.time`; parsed times carry zero seconds and microseconds. */
  datatype Time = Time(hour: int, minute: int, second: int, micro: int)

  /** A `datetime.datetime`: a date together with a time of day. */
  datatype Stamp = Stamp(date: Date, time: Time)

  // ---------------------------------------------------------------------
  // The proleptic Gregorian calendar

  predicate IsLeapYear(year: int) {
    year % 4 == 0 && (year % 100 != 0 || year % 400 == 0)
  }

  function DaysInMonth(year: int, month: int): (n: int)
    requires 1 <= month <= 12
    ensures 28 <= n <= 31
    ensures n == 29 <==> month == 2 && IsLeapYear(year)
  {
    if month == 2 then (if IsLeapYear(year) then 29 else 28)
    else if month == 4 || month == 6 || month == 9 || month == 11 then 30
    else 31
  }

  /** The dates `datetime.date` can represent (years 1 to 9999). */
  predicate ValidDate(d: Date) {
    && 1 <= d.year <= 9999
    && 1 <= d.month <= 12
    && 1 <= d.day <= DaysInMonth(d.year, d.month)
  }

  predicate ValidTime(t: Time) {
    && 0 <= t.hour <= 23
    && 0 <= t.minute <= 59
    && 0 <= t.second <= 59
    && 0 <= t.micro <= 999999
  }

  predicate ValidStamp(s: Stamp) {
    ValidDate(s.date) && ValidTime(s.time)
  }

  // ---------------------------------------------------------------------
  // Ordering, as Python compares `date`, `time` and `datetime` values

  /** `a < b` on dates. */
  predicate DateBefore(a: Date, b: Date) {
    || a.year < b.year
    || (a.year == b.year && a.month < b.month)
    || (a.year == b.year && a.month == b.month && a.day < b.day)
  }

  /** `a <= b` on times of day. */
  predicate TimeAtOrBefore(a: Time, b: Time) {
    || a.hour < b.hour
    || (a.hour == b.hour && a.minute < b.minute)
    || (a.hour == b.hour && a.minute == b.minute && a.second < b.second)
    || (a.hour == b.hour && a.minute == b.minute && a.second == b.second && a.micro <= b.micro)
  }

  /** `a <= b` on date-times. */
  predicate StampAtOrBefore(a: Stamp, b: Stamp) {
    DateBefore(a.date, b.date) || (a.date == b.date && TimeAtOrBefore(a.time, b.time))
  }

  lemma StampOrderTransitive(a: Stamp, b: Stamp, c: Stamp)
    requires StampAtOrBefore(a, b) && StampAtOrBefore(b, c)
    ensures StampAtOrBefore(a, c)
  {
  }

  /** A parsed time has no seconds, so comparing it with a clock reading
      decides at minute precision: the current minute itself counts as
      "not after now", however many seconds of it have passed. */
  lemma ParsedTimeAtOrBefore(t: Time, now: Time)
    requires t.second == 0 && t.micro == 0
    requires ValidTime(now)
    ensures TimeAtOrBefore(t, now)
            <==> t.hour < now.hour || (t.hour == now.hour && t.minute <= now.minute)
  {
  }

  // ---------------------------------------------------------------------
  // Digits and fields

  predicate IsDigit(c: char) {
    '0' <= c <= '9'
  }

  function DigitValue(c: char): (v: int)
    requires IsDigit(c)
    ensures 0 <= v <= 9
  {
    c as int - '0' as int
  }

  function DigitChar(v: int): (c: char)
    requires 0 <= v <= 9
    ensures IsDigit(c) && DigitValue(c) == v
  {
    ('0' as int + v) as char
  }

  /** A field of one or two decimal digits whose value lies in `lo..hi`.
      This is what the patterns `1[0-2]|0[1-9]|[1-9]` (month),
      `2[0-3]|[0-1]\d|\d` (hour), `[0-5]\d|\d` (minute) and the digit
      alternatives of the day pattern accept. */
  function SmallNumber(t: string, lo: int, hi: int): (v: Option<int>)
    ensures v.Some? ==> lo <= v.value <= hi
    ensures v.Some? ==> (|t| == 1 || |t| == 2) && forall k :: 0 <= k < |t| ==> IsDigit(t[k])
  {
    if |t| == 1 && IsDigit(t[0]) && lo <= DigitValue(t[0]) <= hi then
      Some(DigitValue(t[0]))
    else if |t| == 2 && IsDigit(t[0]) && IsDigit(t[1])
            && lo <= 10 * DigitValue(t[0]) + DigitValue(t[1]) <= hi then
      Some(10 * DigitValue(t[0]) + DigitValue(t[1]))
    else
      None
  }

  /** `%d`: `3[01]|[12]\d|0[1-9]|[1-9]| [1-9]`, that is one or two digits
      worth 1 to 31, or a space followed by a non-zero digit. */
  function DayField(t: string): (v: Option<int>)
    ensures v.Some? ==> 1 <= v.value <= 31
    ensures v.Some? ==> '.' !in t && ':' !in t
  {
    if |t| == 2 && t[0] == ' ' && '1' <= t[1] <= '9' then Some(DigitValue(t[1]))
    else SmallNumber(t, 1, 31)
  }

  /** `%m`. */
  function MonthField(t: string): (v: Option<int>)
    ensures v.Some? ==> 1 <= v.value <= 12
    ensures v.Some? ==> '.' !in t
  {
    SmallNumber(t, 1, 12)
  }

  /** `%Y`: exactly four digits. */
  function YearField(t: string): (v: Option<int>)
    ensures v.Some? ==> 0 <= v.value <= 9999
    ensures v.Some? ==> |t| == 4
  {
    if |t| == 4 && IsDigit(t[0]) && IsDigit(t[1]) && IsDigit(t[2]) && IsDigit(t[3]) then
      Some(1000 * DigitValue(t[0]) + 100 * DigitValue(t[1]) + 10 * DigitValue(t[2]) + DigitValue(t[3]))
    else
      None
  }

  /** `%H`. */
  function HourField(t: string): (v: Option<int>)
    ensures v.Some? ==> 0 <= v.value <= 23
    ensures v.Some? ==> ':' !in t
  {
    SmallNumber(t, 0, 23)
  }

  /** `%M`. */
  function MinuteField(t: string): (v: Option<int>)
    ensures v.Some? ==> 0 <= v.value <= 59
  {
    SmallNumber(t, 0, 59)
  }

  // ---------------------------------------------------------------------
  // Splitting at a separator

  /** The position of the first `c` in `s`, if there is one. */
  function Find(s: string, c: char): (r: Option<nat>)
    ensures r.Some? ==> r.value < |s| && s[r.value] == c && c !in s[..r.value]
    ensures r.None? ==> c !in s
  {
    if |s| == 0 then None
    else if s[0] == c then Some(0)
    else
      match Find(s[1..], c)
      case None => None
      case Some(i) => Some(i + 1)
  }

  lemma FindAfter(a: string, c: char, b: string)
    requires c !in a
    ensures Find(a + [c] + b, c) == Some(|a|)
  {
    var s := a + [c] + b;
    assert s[|a|] == c;
    assert s[..|a|] == a;
    assert forall k :: 0 <= k < |a| ==> s[k] == a[k];
  }

  /** The text `a.b.c`. */
  function Dotted(a: string, b: string, c: string): string {
    a + "." + b + "." + c
  }

  /** The text `a:b`. */
  function Coloned(a: string, b: string): string {
    a + ":" + b
  }

  // ---------------------------------------------------------------------
  // Parsing

  /** `datetime.strptime(s, "%d.%m.%Y").date()`, or `None` where it raises
      `ValueError`: a field does not match its pattern, text is left over,
      or the date does not exist (31.02, 29.02 of a common year, year 0). */
  function ParseDate(s: string): (r: Option<Date>)
    ensures r.Some? ==> ValidDate(r.value)
  {
    match Find(s, '.')
    case None => None
    case Some(i) =>
      var rest := s[i + 1..];
      match Find(rest, '.')
      case None => None
      case Some(j) =>
        var day := DayField(s[..i]);
        var month := MonthField(rest[..j]);
        var year := YearField(rest[j + 1..]);
        if day.Some? && month.Some? && year.Some?
           && ValidDate(Date(year.value, month.value, day.value))
        then Some(Date(year.value, month.value, day.value))
        else None
  }

  /** `s` is three fields joined by dots that spell the year, month and day of `d`. */
  ghost predicate SpellsDate(s: string, d: Date) {
    exists a, b, c :: s == Dotted(a, b, c)
      && DayField(a) == Some(d.day) && MonthField(b) == Some(d.month) && YearField(c) == Some(d.year)
  }

  /** The parser accepts exactly the spellings of existing dates. */
  lemma ParseDateSpec(s: string, d: Date)
    ensures ParseDate(s) == Some(d) <==> SpellsDate(s, d) && ValidDate(d)
  {
    if ParseDate(s) == Some(d) {
      ParsedDateIsSpelled(s, d);
    }
    if SpellsDate(s, d) && ValidDate(d) {
      var a, b, c :| s == Dotted(a, b, c)
        && DayField(a) == Some(d.day) && MonthField(b) == Some(d.month) && YearField(c) == Some(d.year);
      SpelledDateParses(a, b, c, d);
    }
  }

  lemma ParsedDateIsSpelled(s: string, d: Date)
    requires ParseDate(s) == Some(d)
    ensures SpellsDate(s, d)
  {
    var i := Find(s, '.').value;
    var rest := s[i + 1..];
    var j := Find(rest, '.').value;
    assert rest == rest[..j] + "." + rest[j + 1..];
    assert s == s[..i] + "." + rest;
    assert s == Dotted(s[..i], rest[..j], rest[j + 1..]);
  }

  lemma SpelledDateParses(a: string, b: string, c: string, d: Date)
    requires DayField(a) == Some(d.day) && MonthField(b) == Some(d.month) && YearField(c) == Some(d.year)
    requires ValidDate(d)
    ensures ParseDate(Dotted(a, b, c)) == Some(d)
  {
    var s := Dotted(a, b, c);
    assert s == a + ['.'] + (b + "." + c);
    FindAfter(a, '.', b + "." + c);
    var rest := s[|a| + 1..];
    assert rest == b + ['.'] + c;
    FindAfter(b, '.', c);
    assert s[..|a|] == a;
    assert rest[..|b|] == b;
    assert rest[|b| + 1..] == c;
  }

  /** `datetime.strptime(s, "%H:%M").time()`, or `None` where it raises `ValueError`. */
  function ParseTime(s: string): (r: Option<Time>)
    ensures r.Some? ==> ValidTime(r.value) && r.value.second == 0 && r.value.micro == 0
  {
    match Find(s, ':')
    case None => None
    case Some(i) =>
      var hour := HourField(s[..i]);
      var minute := MinuteField(s[i + 1..]);
      if hour.Some? && minute.Some? then Some(Time(hour.value, minute.value, 0, 0)) else None
  }

  /** `s` is two fields joined by a colon that spell the hour and minute of `t`. */
  ghost predicate SpellsTime(s: string, t: Time) {
    exists a, b :: s == Coloned(a, b) && HourField(a) == Some(t.hour) && MinuteField(b) == Some(t.minute)
  }

  /** The parser accepts exactly the spellings of a whole minute of the day. */
  lemma ParseTimeSpec(s: string, t: Time)
    ensures ParseTime(s) == Some(t) <==> SpellsTime(s, t) && t.second == 0 && t.micro == 0
  {
    if ParseTime(s) == Some(t) {
      var i := Find(s, ':').value;
      assert s == s[..i] + ":" + s[i + 1..];
      assert s == Coloned(s[..i], s[i + 1..]);
    }
    if SpellsTime(s, t) && t.second == 0 && t.micro == 0 {
      var a, b :| s == Coloned(a, b) && HourField(a) == Some(t.hour) && MinuteField(b) == Some(t.minute);
      SpelledTimeParses(a, b, t);
    }
  }

  lemma SpelledTimeParses(a: string, b: string, t: Time)
    requires HourField(a) == Some(t.hour) && MinuteField(b) == Some(t.minute)
    requires t.second == 0 && t.micro == 0
    ensures ParseTime(Coloned(a, b)) == Some(t)
  {
    var s := Coloned(a, b);
    FindAfter(a, ':', b);
    assert s == a + [':'] + b;
    assert s[..|a|] == a;
    assert s[|a| + 1..] == b;
  }

  // ---------------------------------------------------------------------
  // Formatting, the inverse of parsing

  /** `n` zero-padded to two digits, as `%02d` writes it. */
  function Pad2(n: int): (t: string)
    requires 0 <= n <= 99
    ensures |t| == 2 && IsDigit(t[0]) && IsDigit(t[1])
    ensures 10 * DigitValue(t[0]) + DigitValue(t[1]) == n
  {
    [DigitChar(n / 10), DigitChar(n % 10)]
  }

  /** `n` zero-padded to four digits, as `%04d` writes it. */
  function Pad4(n: int): (t: string)
    requires 0 <= n <= 9999
    ensures YearField(t) == Some(n)
  {
    var thousands, below1000 := n / 1000, n % 1000;
    var hundreds, below100 := below1000 / 100, below1000 % 100;
    var tens, ones := below100 / 10, below100 % 10;
    [DigitChar(thousands), DigitChar(hundreds), DigitChar(tens), DigitChar(ones)]
  }

  /** `d.strftime("%d.%m.%Y")`. */
  function FormatDate(d: Date): string
    requires ValidDate(d)
  {
    Dotted(Pad2(d.day), Pad2(d.month), Pad4(d.year))
  }

  /** `t.strftime("%H:%M")`. */
  function FormatTime(t: Time): string
    requires ValidTime(t)
  {
    Coloned(Pad2(t.hour), Pad2(t.minute))
  }

  lemma PadField(n: int, lo: int, hi: int)
    requires 0 <= lo <= n <= hi <= 99
    ensures SmallNumber(Pad2(n), lo, hi) == Some(n)
  {
  }

  /** Every existing date survives formatting and parsing back. */
  lemma ParseFormatDate(d: Date)
    requires ValidDate(d)
    ensures ParseDate(FormatDate(d)) == Some(d)
  {
    PadField(d.day, 1, 31);
    PadField(d.month, 1, 12);
    assert DayField(Pad2(d.day)) == Some(d.day);
    assert SpellsDate(FormatDate(d), d);
    ParseDateSpec(FormatDate(d), d);
  }

  /** Every whole minute of the day survives formatting and parsing back. */
  lemma ParseFormatTime(t: Time)
    requires ValidTime(t) && t.second == 0 && t.micro == 0
    ensures ParseTime(FormatTime(t)) == Some(t)
  {
    PadField(t.hour, 0, 23);
    PadField(t.minute, 0, 59);
    assert SpellsTime(FormatTime(t), t);
    ParseTimeSpec(FormatTime(t), t);
  }
}

=== FILE: optional.dfy ===
/** The value-or-nothing datatype used wherever the program either produces a
    value or raises `ValueError` (parsing) or has nothing to report. */
module Optional {

  datatype Option<+T> = None | Some(value: T)
}

=== FILE: reminders.dfy ===
/** The reminder records and the store that holds them. The store's engine
    (`DB_Manager`) is not part of this model; it is treated as a table of
    records keyed by a store-assigned id, with the two writes the wizard and
    the delivery pass make: adding a record and setting its sent flag. */
module Reminders {
  import opened Optional
  import opened Calendar

  /** A messenger user id. */
  type UserId = int

  /** One stored reminder. `date` and `time` keep the text the user typed. */
  datatype Reminder = Reminder(
    user: UserId,
    title: string,
    description: string,
    date: string,
    time: string,
    sent: bool)

  /** The reminder table and the id the next insert will receive. */
  datatype Store = Store(rows: map<nat, Reminder>, next: nat)

  /** Every stored id was handed out before `next`, so `next` is fresh. */
  predicate FreshNext(s: Store) {
    forall id :: id in s.rows ==> id < s.next
  }

  /** A record whose date and time text parse as the wizard demanded. */
  predicate RecordOk(r: Reminder) {
    ParseDate(r.date).Some? && ParseTime(r.time).Some?
  }

  /** Inserts `r` under a fresh id; nothing already stored changes. */
  function Add(s: Store, r: Reminder): (s': Store)
    ensures s.next in s'.rows && s'.rows[s.next] == r
    ensures s'.rows.Keys == s.rows.Keys + {s.next}
    ensures FreshNext(s) ==> FreshNext(s') && |s'.rows| == |s.rows| + 1
    ensures FreshNext(s) ==> forall id :: id in s.rows ==> s'.rows[id] == s.rows[id]
  {
    Store(s.rows[s.next := r], s.next + 1)
  }

  /** Adding a record whose date and time parse to a store whose records all
      parse keeps every record parseable. */
  lemma AddKeepsRecordsOk(s: Store, r: Reminder)
    requires FreshNext(s) && RecordOk(r)
    requires forall id :: id in s.rows ==> RecordOk(s.rows[id])
    ensures forall id :: id in Add(s, r).rows ==> RecordOk(Add(s, r).rows[id])
  {
  }

  /** Sets the sent flag of record `id`; other records and fields stay as they are.
      An id that is not stored is modelled as changing nothing; the store's own
      behaviour for such an id is not part of this model. */
  function MarkSent(s: Store, id: nat): (s': Store)
    ensures s'.next == s.next && s'.rows.Keys == s.rows.Keys
    ensures id in s.rows ==> s'.rows[id] == s.rows[id].(sent := true)
    ensures forall k :: k in s.rows && k != id ==> s'.rows[k] == s.rows[k]
  {
    if id in s.rows then Store(s.rows[id := s.rows[id].(sent := true)], s.next) else s
  }
}

=== FILE: scheduler.dfy ===
/** One pass of the delivery scheduler: the pending reminders are read once,
    each one whose date and time have come is sent to its owner, and a
    reminder is marked sent only after its message went out. A failed send is
    swallowed and the pass goes on with the next reminder, so the failed one
    stays unsent and due in the store. A row whose date or time cannot be
    read raises an error nothing catches: the pass stops there, and with it
    the scheduler thread, so no later pass runs.

    The clock reading `now` is a parameter, and the messenger is an oracle:
    the k-th send attempt of the pass succeeds exactly when `outcomes[k]` is
    true (attempts beyond the oracle fail). */
module Scheduler {
  import opened Optional
  import opened Calendar
  import opened Reminders
  import Wizard

  /** One row of the pending query: a stored id with the record as read at
      the start of the pass. */
  datatype Row = Row(id: nat, reminder: Reminder)

  /** What the reminder message says: the title, and the description when
      there is one. */
  datatype Notice = Notice(to: UserId, title: string, detail: Option<string>)

  /** The pass's effects on the messenger and the store, in order. */
  datatype Event =
    | Sent(id: nat, notice: Notice)
    | SendFailed(id: nat, notice: Notice)
    | Marked(id: nat)

  /** The store after the pass, what happened, and whether the pass stopped
      early on a row whose date and time do not parse. */
  datatype Pass = Pass(store: Store, trace: seq<Event>, aborted: bool)

  /** The row's date and time read with `%d.%m.%Y %H:%M`. */
  function StampOf(r: Reminder): (s: Option<Stamp>)
    ensures s.Some? <==> RecordOk(r)
  {
    match (ParseDate(r.date), ParseTime(r.time))
    case (Some(d), Some(t)) => Some(Stamp(d, t))
    case _ => None
  }

  /** The reminder's moment has come: its date and time are at or before now. */
  predicate IsDue(r: Reminder, now: Stamp) {
    StampOf(r).Some? && StampAtOrBefore(StampOf(r).value, now)
  }

  function NoticeFor(r: Reminder): (n: Notice)
    ensures n.to == r.user && n.title == r.title
    ensures n.detail.Some? <==> r.description != ""
    ensures n.detail.Some? ==> n.detail.value == r.description
  {
    Notice(r.user, r.title, if r.description != "" then Some(r.description) else None)
  }

  /** The `k`-th send attempt succeeds. */
  predicate Delivers(outcomes: seq<bool>, k: nat) {
    k < |outcomes| && outcomes[k]
  }

  /** The oracle after one attempt. */
  function Consume(outcomes: seq<bool>): (rest: seq<bool>)
    ensures forall k: nat :: Delivers(rest, k) <==> Delivers(outcomes, k + 1)
  {
    if outcomes == [] then [] else outcomes[1..]
  }

  /** The event an attempt to send `row` produces. */
  function Attempt(row: Row, ok: bool): Event {
    if ok then Sent(row.id, NoticeFor(row.reminder)) else SendFailed(row.id, NoticeFor(row.reminder))
  }

  /** The pass over `pending`. */
  function Scan(store: Store, pending: seq<Row>, now: Stamp, outcomes: seq<bool>): (r: Pass)
    ensures r.store.next == store.next && r.store.rows.Keys == store.rows.Keys
    ensures forall id :: id in store.rows ==>
              r.store.rows[id] == store.rows[id].(sent := r.store.rows[id].sent)
    ensures forall id :: id in store.rows ==>
              (r.store.rows[id].sent <==> store.rows[id].sent || Marked(id) in r.trace)
    decreases |pending|
  {
    if pending == [] then Pass(store, [], false)
    else
      var row := pending[0];
      match StampOf(row.reminder)
      case None => Pass(store, [], true)
      case Some(stamp) =>
        if !StampAtOrBefore(stamp, now) then
          Scan(store, pending[1..], now, outcomes)
        else
          var ok := Delivers(outcomes, 0);
          var rest := Scan(if ok then MarkSent(store, row.id) else store, pending[1..], now, Consume(outcomes));
          Pass(rest.store, Visit(row, ok) + rest.trace, rest.aborted)
  }

  /** The events of one due row: the send attempt, then the mark when the
      send succeeded. */
  function Visit(row: Row, ok: bool): seq<Event> {
    [Attempt(row, ok)] + (if ok then [Marked(row.id)] else [])
  }

  /** `r` preceded by the events in `prefix`. */
  function After(prefix: seq<Event>, r: Pass): Pass {
    Pass(r.store, prefix + r.trace, r.aborted)
  }

  // -----------------------------------------------------------------------
  // Reference views of a pass

  /** Every row's date and time can be read. */
  predicate AllReadable(pending: seq<Row>) {
    forall i :: 0 <= i < |pending| ==> RecordOk(pending[i].reminder)
  }

  /** The rows whose moment has come, in the order of the query. */
  function DueRows(pending: seq<Row>, now: Stamp): seq<Row>
    decreases |pending|
  {
    if pending == [] then []
    else (if IsDue(pending[0].reminder, now) then [pending[0]] else []) + DueRows(pending[1..], now)
  }

  /** The send attempts of a trace, successful or not, in order. */
  function Attempts(trace: seq<Event>): seq<Event>
    decreases |trace|
  {
    if trace == [] then []
    else (if trace[0].Marked? then [] else [trace[0]]) + Attempts(trace[1..])
  }

  /** Each mark directly follows a successful send of the same reminder, and
      each successful send is directly followed by its mark. */
  predicate MarksFollowSends(trace: seq<Event>) {
    && (forall k :: 0 <= k < |trace| && trace[k].Marked? ==>
          0 < k && trace[k - 1].Sent? && trace[k - 1].id == trace[k].id)
    && (forall k :: 0 <= k < |trace| && trace[k].Sent? ==>
          k + 1 < |trace| && trace[k + 1] == Marked(trace[k].id))
  }

  // -----------------------------------------------------------------------
  // Properties of a pass

  /** The first row of a pass cannot be read: the pass stops there. */
  lemma ScanStops(store: Store, pending: seq<Row>, now: Stamp, outcomes: seq<bool>)
    requires pending != [] && !RecordOk(pending[0].reminder)
    ensures Scan(store, pending, now, outcomes) == Pass(store, [], true)
  {
  }

  /** The first row of a pass is not due: the pass skips it. */
  lemma ScanSkips(store: Store, pending: seq<Row>, now: Stamp, outcomes: seq<bool>)
    requires pending != [] && RecordOk(pending[0].reminder) && !IsDue(pending[0].reminder, now)
    ensures Scan(store, pending, now, outcomes) == Scan(store, pending[1..], now, outcomes)
    ensures DueRows(pending, now) == DueRows(pending[1..], now)
  {
  }

  /** The first row of a pass is due: the pass attempts it, marks it when the
      attempt succeeds, and goes on with the rest of the oracle. */
  lemma ScanAttempts(store: Store, pending: seq<Row>, now: Stamp, outcomes: seq<bool>)
    requires pending != [] && IsDue(pending[0].reminder, now)
    ensures var row := pending[0];
            var ok := Delivers(outcomes, 0);
            var rest := Scan(if ok then MarkSent(store, row.id) else store, pending[1..], now, Consume(outcomes));
            Scan(store, pending, now, outcomes) == After(Visit(row, ok), rest)
    ensures DueRows(pending, now) == [pending[0]] + DueRows(pending[1..], now)
  {
  }

  lemma MarksFollowSendsPrepend(row: Row, ok: bool, trace: seq<Event>)
    requires MarksFollowSends(trace)
    ensures MarksFollowSends(Visit(row, ok) + trace)
  {
    var head := Visit(row, ok);
    var t := head + trace;
    assert forall k :: |head| <= k < |t| ==> t[k] == trace[k - |head|];
  }

  /** Send first, then mark: the store is written for a reminder only right
      after its message went out, and every message that went out is marked. */
  lemma {:induction false} SendThenMark(store: Store, pending: seq<Row>, now: Stamp, outcomes: seq<bool>)
    ensures MarksFollowSends(Scan(store, pending, now, outcomes).trace)
    decreases |pending|
  {
    if pending != [] {
      var row := pending[0];
      if !RecordOk(row.reminder) {
        ScanStops(store, pending, now, outcomes);
      } else if !IsDue(row.reminder, now) {
        ScanSkips(store, pending, now, outcomes);
        SendThenMark(store, pending[1..], now, outcomes);
      } else {
        var ok := Delivers(outcomes, 0);
        var after := if ok then MarkSent(store, row.id) else store;
        ScanAttempts(store, pending, now, outcomes);
        SendThenMark(after, pending[1..], now, Consume(outcomes));
        MarksFollowSendsPrepend(row, ok, Scan(after, pending[1..], now, Consume(outcomes)).trace);
      }
    }
  }

  /** The read of a row's date and time sits outside the guarded send, so a
      row that cannot be read ends the whole pass, and only such a row does. */
  lemma {:induction false} AbortsIffUnreadable(store: Store, pending: seq<Row>, now: Stamp, outcomes: seq<bool>)
    ensures Scan(store, pending, now, outcomes).aborted
            <==> exists i :: 0 <= i < |pending| && !RecordOk(pending[i].reminder)
    decreases |pending|
  {
    if pending != [] {
      var row := pending[0];
      var tail := pending[1..];
      assert forall i :: 1 <= i < |pending| ==> pending[i] == tail[i - 1];
      assert forall i :: 0 <= i < |tail| ==> tail[i] == pending[i + 1];
      match StampOf(row.reminder)
      case None =>
      case Some(stamp) =>
        if !StampAtOrBefore(stamp, now) {
          AbortsIffUnreadable(store, tail, now, outcomes);
        } else if Delivers(outcomes, 0) {
          AbortsIffUnreadable(MarkSent(store, row.id), tail, now, Consume(outcomes));
        } else {
          AbortsIffUnreadable(store, tail, now, Consume(outcomes));
        }
    }
  }

  /** Records the wizard stored can always be read, so over rows of such a
      store the pass never stops early. */
  lemma StoredRecordsNeverAbort(store: Store, pending: seq<Row>, now: Stamp, outcomes: seq<bool>)
    requires forall id :: id in store.rows ==> RecordOk(store.rows[id])
    requires forall i :: 0 <= i < |pending| ==>
               pending[i].id in store.rows && pending[i].reminder == store.rows[pending[i].id]
    ensures !Scan(store, pending, now, outcomes).aborted
  {
    AbortsIffUnreadable(store, pending, now, outcomes);
  }

  /** A pass only sets sent flags, so it keeps the wizard's invariant; the
      wizard's steps and the passes can interleave freely. */
  lemma ScanKeepsWellFormed(sessions: map<UserId, Wizard.Session>, store: Store,
                            pending: seq<Row>, now: Stamp, outcomes: seq<bool>)
    requires Wizard.WellFormed(sessions, store)
    ensures Wizard.WellFormed(sessions, Scan(store, pending, now, outcomes).store)
  {
    var r := Scan(store, pending, now, outcomes).store;
    forall id | id in r.rows
      ensures RecordOk(r.rows[id])
    {
      assert r.rows[id] == store.rows[id].(sent := r.rows[id].sent);
    }
  }

  /** Everything a pass does before its first unreadable row stands: the pass
      over `good`, then the stop. So the statements about readable rows hold
      for the rows before the stop. */
  lemma {:induction false} ScanUpToUnreadable(store: Store, good: seq<Row>, bad: Row, rest: seq<Row>,
                                              now: Stamp, outcomes: seq<bool>)
    requires AllReadable(good) && !RecordOk(bad.reminder)
    ensures Scan(store, good + [bad] + rest, now, outcomes) == Scan(store, good, now, outcomes).(aborted := true)
    decreases |good|
  {
    var pending := good + [bad] + rest;
    if good == [] {
      assert pending[0] == bad;
      ScanStops(store, pending, now, outcomes);
    } else {
      var row := good[0];
      assert pending[0] == row && pending[1..] == good[1..] + [bad] + rest;
      assert RecordOk(row.reminder);
      assert AllReadable(good[1..]) by {
        forall i | 0 <= i < |good[1..]| ensures RecordOk(good[1..][i].reminder) {
          assert good[1..][i] == good[i + 1];
        }
      }
      if !IsDue(row.reminder, now) {
        ScanSkips(store, pending, now, outcomes);
        ScanSkips(store, good, now, outcomes);
        ScanUpToUnreadable(store, good[1..], bad, rest, now, outcomes);
      } else {
        var ok := Delivers(outcomes, 0);
        var after := if ok then MarkSent(store, row.id) else store;
        ScanAttempts(store, pending, now, outcomes);
        ScanAttempts(store, good, now, outcomes);
        ScanUpToUnreadable(after, good[1..], bad, rest, now, Consume(outcomes));
      }
    }
  }

  lemma AttemptsOfAttempt(row: Row, ok: bool, trace: seq<Event>)
    ensures Attempts(Visit(row, ok) + trace) == [Attempt(row, ok)] + Attempts(trace)
  {
    var t := Visit(row, ok) + trace;
    if ok {
      assert t[1..] == [Marked(row.id)] + trace;
      assert t[1..][1..] == trace;
    } else {
      assert t[1..] == trace;
    }
  }

  /** Every due row is attempted, in order, whatever happened to the attempts
      before it; the k-th attempt succeeds as the oracle says; and no row that
      is not yet due is attempted. */
  lemma {:induction false} AttemptsAreDueRows(store: Store, pending: seq<Row>, now: Stamp, outcomes: seq<bool>)
    requires AllReadable(pending)
    ensures var a := Attempts(Scan(store, pending, now, outcomes).trace);
            var due := DueRows(pending, now);
            |a| == |due| && forall k :: 0 <= k < |due| ==> a[k] == Attempt(due[k], Delivers(outcomes, k))
    decreases |pending|
  {
    if pending != [] {
      var row := pending[0];
      var tail := pending[1..];
      assert AllReadable(tail) by {
        assert forall i :: 0 <= i < |tail| ==> tail[i] == pending[i + 1];
      }
      assert RecordOk(row.reminder);
      if !IsDue(row.reminder, now) {
        ScanSkips(store, pending, now, outcomes);
        AttemptsAreDueRows(store, tail, now, outcomes);
      } else {
        var ok := Delivers(outcomes, 0);
        var after := if ok then MarkSent(store, row.id) else store;
        ScanAttempts(store, pending, now, outcomes);
        AttemptsAreDueRows(after, tail, now, Consume(outcomes));
        var rest := Scan(after, tail, now, Consume(outcomes));
        AttemptsOfAttempt(row, ok, rest.trace);
        AttemptsShift(row, outcomes, Attempts(rest.trace), DueRows(tail, now));
      }
    }
  }

  lemma AttemptsShift(row: Row, outcomes: seq<bool>, later: seq<Event>, dueTail: seq<Row>)
    requires |later| == |dueTail|
    requires forall k :: 0 <= k < |dueTail| ==> later[k] == Attempt(dueTail[k], Delivers(Consume(outcomes), k))
    ensures var a := [Attempt(row, Delivers(outcomes, 0))] + later;
            var due := [row] + dueTail;
            |a| == |due| && forall k :: 0 <= k < |due| ==> a[k] == Attempt(due[k], Delivers(outcomes, k))
  {
    var a := [Attempt(row, Delivers(outcomes, 0))] + later;
    var due := [row] + dueTail;
    forall k | 0 <= k < |due|
      ensures a[k] == Attempt(due[k], Delivers(outcomes, k))
    {
      if k > 0 {
        assert a[k] == later[k - 1] && due[k] == dueTail[k - 1];
        assert Delivers(Consume(outcomes), k - 1) == Delivers(outcomes, k);
      }
    }
  }

  /** A stored reminder ends the pass marked sent exactly when it was already
      sent or it is among the due rows and its send attempt succeeded. A row
      that is not due, or whose send failed, keeps its flag. */
  lemma {:induction false} SentIffDueAndDelivered(store: Store, pending: seq<Row>, now: Stamp,
                                                  outcomes: seq<bool>, id: nat)
    requires AllReadable(pending)
    requires id in store.rows
    ensures var due := DueRows(pending, now);
            Scan(store, pending, now, outcomes).store.rows[id].sent
            <==> store.rows[id].sent
                 || exists k :: 0 <= k < |due| && due[k].id == id && Delivers(outcomes, k)
    decreases |pending|
  {
    if pending != [] {
      var row := pending[0];
      var tail := pending[1..];
      assert AllReadable(tail) by {
        assert forall i :: 0 <= i < |tail| ==> tail[i] == pending[i + 1];
      }
      assert RecordOk(row.reminder);
      if !IsDue(row.reminder, now) {
        ScanSkips(store, pending, now, outcomes);
        SentIffDueAndDelivered(store, tail, now, outcomes, id);
      } else {
        var ok := Delivers(outcomes, 0);
        var after := if ok then MarkSent(store, row.id) else store;
        ScanAttempts(store, pending, now, outcomes);
        SentIffDueAndDelivered(after, tail, now, Consume(outcomes), id);
        DeliveredShift(row, outcomes, DueRows(tail, now), id);
      }
    }
  }

  lemma DeliveredShift(row: Row, outcomes: seq<bool>, dueTail: seq<Row>, id: nat)
    ensures var due := [row] + dueTail;
            (exists k :: 0 <= k < |due| && due[k].id == id && Delivers(outcomes, k))
            <==> (row.id == id && Delivers(outcomes, 0))
                 || exists k :: 0 <= k < |dueTail| && dueTail[k].id == id && Delivers(Consume(outcomes), k)
  {
    var due := [row] + dueTail;
    if exists k :: 0 <= k < |dueTail| && dueTail[k].id == id && Delivers(Consume(outcomes), k) {
      var k :| 0 <= k < |dueTail| && dueTail[k].id == id && Delivers(Consume(outcomes), k);
      assert due[k + 1].id == id && Delivers(outcomes, k + 1);
    }
    if exists k :: 0 <= k < |due| && due[k].id == id && Delivers(outcomes, k) {
      var k :| 0 <= k < |due| && due[k].id == id && Delivers(outcomes, k);
      if k > 0 {
        assert dueTail[k - 1].id == id && Delivers(Consume(outcomes), k - 1);
      }
    }
  }

  // -----------------------------------------------------------------------
  // From one pass to the next

  /** The stored reminders that are not yet sent and are due at `t`. Whether
      the pending query of a later pass returns exactly these depends on the
      store's query, which is not part of this model. */
  function DueUnsent(store: Store, t: Stamp): set<nat> {
    set id | id in store.rows && !store.rows[id].sent && IsDue(store.rows[id], t)
  }

  /** A reminder whose message went out is marked, so it leaves the unsent
      and due reminders of the store for good. */
  lemma DeliveredNeverDueAgain(store: Store, pending: seq<Row>, now: Stamp, outcomes: seq<bool>,
                               k: nat, later: Stamp)
    requires var r := Scan(store, pending, now, outcomes); k < |r.trace| && r.trace[k].Sent?
    requires Scan(store, pending, now, outcomes).trace[k].id in store.rows
    ensures Scan(store, pending, now, outcomes).trace[k].id
            !in DueUnsent(Scan(store, pending, now, outcomes).store, later)
  {
    var r := Scan(store, pending, now, outcomes);
    SendThenMark(store, pending, now, outcomes);
    assert r.trace[k + 1] == Marked(r.trace[k].id);
    assert Marked(r.trace[k].id) in r.trace;
  }

  /** A due reminder that was not delivered in this pass, because its send
      failed, stays unsent and due in the store at any later time. */
  lemma UndeliveredStaysDue(store: Store, pending: seq<Row>, now: Stamp, outcomes: seq<bool>,
                            id: nat, later: Stamp)
    requires AllReadable(pending)
    requires id in DueUnsent(store, now)
    requires StampAtOrBefore(now, later)
    requires forall k :: 0 <= k < |DueRows(pending, now)| && DueRows(pending, now)[k].id == id
               ==> !Delivers(outcomes, k)
    ensures id in DueUnsent(Scan(store, pending, now, outcomes).store, later)
  {
    var r := Scan(store, pending, now, outcomes);
    SentIffDueAndDelivered(store, pending, now, outcomes, id);
    var rec := store.rows[id];
    assert r.store.rows[id] == rec;
    StampOrderTransitive(StampOf(rec).value, now, later);
  }

  /** The example of a due reminder: at 14:00 on 25.12.2024 a reminder for
      13:59 that day is due. */
  const TwoPm := Stamp(Date(2024, 12, 25), Time(14, 0, 0, 0))

  function CallAt1359(user: UserId): Reminder {
    Reminder(user, "Call", "", "25.12.2024", "13:59", false)
  }

  lemma CallIsDueAtTwo(user: UserId)
    ensures IsDue(CallAt1359(user), TwoPm)
  {
    CallStamp(user);
  }

  /** In a store holding one unsent due record, that record is all a pass finds. */
  lemma LoneDue(id: nat, rec: Reminder, next: nat, t: Stamp)
    requires !rec.sent && IsDue(rec, t)
    ensures DueUnsent(Store(map[id := rec], next), t) == {id}
  {
    var store := Store(map[id := rec], next);
    assert id in DueUnsent(store, t);
  }

  lemma CallStamp(user: UserId)
    ensures StampOf(CallAt1359(user)) == Some(Stamp(Date(2024, 12, 25), Time(13, 59, 0, 0)))
  {
    CallTexts();
  }

  lemma CallTexts()
    ensures ParseDate("25.12.2024") == Some(Date(2024, 12, 25))
    ensures ParseTime("13:59") == Some(Time(13, 59, 0, 0))
  {
    assert Dotted("25", "12", "2024") == "25.12.2024";
    SpelledDateParses("25", "12", "2024", Date(2024, 12, 25));
    assert Coloned("13", "59") == "13:59";
    SpelledTimeParses("13", "59", Time(13, 59, 0, 0));
  }

  /** A successful send marks the example reminder. */
  lemma CallDeliveredAtTwo(user: UserId)
    ensures Scan(Store(map[1 := CallAt1359(user)], 2), [Row(1, CallAt1359(user))], TwoPm, [true]).store.rows[1].sent
  {
    CallIsDueAtTwo(user);
    ScanAttempts(Store(map[1 := CallAt1359(user)], 2), [Row(1, CallAt1359(user))], TwoPm, [true]);
  }

  /** A failed send leaves the example reminder unsent and due for the next pass. */
  lemma CallFailedAtTwo(user: UserId)
    ensures var store := Store(map[1 := CallAt1359(user)], 2);
            DueUnsent(Scan(store, [Row(1, CallAt1359(user))], TwoPm, [false]).store, TwoPm) == {1}
  {
    var store := Store(map[1 := CallAt1359(user)], 2);
    CallIsDueAtTwo(user);
    ScanAttempts(store, [Row(1, CallAt1359(user))], TwoPm, [false]);
    assert Scan(store, [Row(1, CallAt1359(user))], TwoPm, [false]).store == store;
    LoneDue(1, CallAt1359(user), 2, TwoPm);
  }

  // -----------------------------------------------------------------------
  // The pass as the program runs it

  /** `check_reminders`: the loop over the pending rows, with the read of each
      row's date and time, the due test, and send-then-mark guarded so that a
      failed send only moves on to the next row. */
  method CheckReminders(store: Store, pending: seq<Row>, now: Stamp, outcomes: seq<bool>) returns (result: Pass)
    ensures result == Scan(store, pending, now, outcomes)
  {
    var current := store;
    var trace: seq<Event> := [];
    var oracle := outcomes;
    var i := 0;
    while i < |pending|
      invariant 0 <= i <= |pending|
      invariant Scan(store, pending, now, outcomes) == After(trace, Scan(current, pending[i..], now, oracle))
    {
      var row := pending[i];
      assert pending[i..][0] == row && pending[i..][1..] == pending[i + 1..];
      var stamp := StampOf(row.reminder);
      if stamp.None? {
        ScanStops(current, pending[i..], now, oracle);
        return Pass(current, trace, true);
      }
      if StampAtOrBefore(stamp.value, now) {
        ScanAttempts(current, pending[i..], now, oracle);
        var before, ok := trace, Delivers(oracle, 0);
        var events;
        current, events, oracle := SendDue(current, row, oracle);
        trace := trace + events;
        AfterAfter(before, Visit(row, ok), Scan(current, pending[i + 1..], now, oracle));
      } else {
        ScanSkips(current, pending[i..], now, oracle);
      }
      i := i + 1;
    }
    assert pending[i..] == [];
    return Pass(current, trace, false);
  }

  /** The send of one due row, then its mark when the send went out. */
  method SendDue(store: Store, row: Row, oracle: seq<bool>) returns (next: Store, events: seq<Event>, rest: seq<bool>)
    ensures next == if Delivers(oracle, 0) then MarkSent(store, row.id) else store
    ensures events == Visit(row, Delivers(oracle, 0))
    ensures rest == Consume(oracle)
  {
    var notice := NoticeFor(row.reminder);
    next, rest := store, Consume(oracle);
    if Delivers(oracle, 0) {
      events := [Sent(row.id, notice)];
      next := MarkSent(store, row.id);
      events := events + [Marked(row.id)];
    } else {
      events := [SendFailed(row.id, notice)];
    }
  }

  lemma AfterAfter(a: seq<Event>, b: seq<Event>, r: Pass)
    ensures After(a, After(b, r)) == After(a + b, r)
  {
    assert a + (b + r.trace) == a + b + r.trace;
  }
}

=== FILE: wizard.dfy ===
/** The reminder-creation wizard: a per-user conversation that collects a
    title, a description, a date and a time, one text message per step, and
    stores the reminder when the last step succeeds.

    The sessions are a map from user id to the step the user is at, together
    with the fields collected so far. A step is a pure function of the
    sessions, the store, the user, the text of the message and the clock
    reading `now`, which the program obtains from `datetime.now()`. */
module Wizard {
  import opened Optional
  import opened Calendar
  import opened Reminders

  /** Where a user is in the wizard, with the fields already collected. */
  datatype Session =
    | AwaitTitle
    | AwaitDescription(title: string)
    | AwaitDate(title: string, description: string)
    | AwaitTime(title: string, description: string, date: string)

  /** The one message each event sends back. */
  datatype Reply =
    | AskTitle        // the session has just started
    | UseStart        // text from a user with no session
    | AskDescription
    | AskDate
    | AskTime
    | BadDate         // the date does not parse
    | DateInPast
    | BadTime         // the time (or the stored date) does not parse
    | TimeInPast
    | Created         // the reminder is stored
  {
    /** The replies that ask the user to try the same step again. */
    predicate IsRejection() {
      BadDate? || DateInPast? || BadTime? || TimeInPast?
    }
  }

  /** Sessions, store and reply after one event. */
  datatype Outcome = Outcome(sessions: map<UserId, Session>, store: Store, reply: Reply)

  /** One text message of the user, with the clock reading at which it is handled. */
  datatype Input = Input(text: string, now: Stamp)

  /** How the time step decides that a reminder lies in the past.
      `SameDayOnly` is the check the program makes: only a time on today's
      date can be too early. `WholeStamp` compares the whole date and time
      with now; see the findings in the README. */
  datatype PastCheck = SameDayOnly | WholeStamp

  /** The description text that stands for "no description". */
  const SkipToken := "-"

  /** The description stored for the text `text`. */
  function DescriptionOf(text: string): (d: string)
    ensures text == SkipToken ==> d == ""
    ensures text != SkipToken ==> d == text
  {
    if text == SkipToken then "" else text
  }

  /** The "add reminder" button: a fresh session at the title step, replacing
      whatever session the user had. */
  function StartSession(sessions: map<UserId, Session>, user: UserId): (r: map<UserId, Session>)
    ensures user in r && r[user] == AwaitTitle
    ensures r.Keys == sessions.Keys + {user}
    ensures forall u :: u in sessions && u != user ==> r[u] == sessions[u]
  {
    sessions[user := AwaitTitle]
  }

  /** The time step refuses `time` on `date` as lying in the past. */
  predicate TimeRejected(check: PastCheck, date: Date, time: Time, now: Stamp) {
    match check
    case SameDayOnly => date == now.date && TimeAtOrBefore(time, now.time)
    case WholeStamp => StampAtOrBefore(Stamp(date, time), now)
  }

  /** One text message from `user`. */
  function Step(check: PastCheck, sessions: map<UserId, Session>, store: Store,
                user: UserId, text: string, now: Stamp): (r: Outcome)
    ensures user !in sessions ==> r == Outcome(sessions, store, UseStart)
    ensures forall u :: u != user ==>
              (u in r.sessions <==> u in sessions) && (u in sessions ==> r.sessions[u] == sessions[u])
    ensures r.reply.IsRejection() ==> r.sessions == sessions && r.store == store
    ensures r.reply != Created ==> r.store == store
    ensures r.reply != Created && r.reply != UseStart ==> user in r.sessions
    ensures r.reply == Created ==>
              && user in sessions && sessions[user].AwaitTime?
              && user !in r.sessions
              && r.store == Add(store, Reminder(user, sessions[user].title, sessions[user].description,
                                                sessions[user].date, text, false))
  {
    if user !in sessions then Outcome(sessions, store, UseStart)
    else
      match sessions[user]
      case AwaitTitle =>
        Outcome(sessions[user := AwaitDescription(text)], store, AskDescription)
      case AwaitDescription(title) =>
        Outcome(sessions[user := AwaitDate(title, DescriptionOf(text))], store, AskDate)
      case AwaitDate(title, description) =>
        (match ParseDate(text)
         case None => Outcome(sessions, store, BadDate)
         case Some(d) =>
           if DateBefore(d, now.date) then Outcome(sessions, store, DateInPast)
           else Outcome(sessions[user := AwaitTime(title, description, text)], store, AskTime))
      case AwaitTime(title, description, date) =>
        var time := ParseTime(text);
        var day := ParseDate(date);
        if time.None? || day.None? then Outcome(sessions, store, BadTime)
        else if TimeRejected(check, day.value, time.value, now) then Outcome(sessions, store, TimeInPast)
        else Outcome(sessions - {user}, Add(store, Reminder(user, title, description, date, text, false)), Created)
  }

  /** A run of messages from one user, starting from `o`. */
  function Feed(check: PastCheck, o: Outcome, user: UserId, inputs: seq<Input>): (r: Outcome)
    ensures forall u :: u != user ==>
              (u in r.sessions <==> u in o.sessions) && (u in o.sessions ==> r.sessions[u] == o.sessions[u])
    ensures FreshNext(o.store) ==>
              && FreshNext(r.store)
              && forall id :: id in o.store.rows ==> id in r.store.rows && r.store.rows[id] == o.store.rows[id]
    ensures forall id :: id in r.store.rows ==>
              || (id in o.store.rows && r.store.rows[id] == o.store.rows[id])
              || (r.store.rows[id].user == user && !r.store.rows[id].sent)
    decreases |inputs|
  {
    if inputs == [] then o
    else Feed(check, Step(check, o.sessions, o.store, user, inputs[0].text, inputs[0].now), user, inputs[1..])
  }

  // -----------------------------------------------------------------------
  // The steps one by one

  /** The title is stored verbatim and the wizard moves on to the description. */
  lemma TitleStep(check: PastCheck, sessions: map<UserId, Session>, store: Store,
                  user: UserId, text: string, now: Stamp)
    requires user in sessions && sessions[user] == AwaitTitle
    ensures Step(check, sessions, store, user, text, now)
            == Outcome(sessions[user := AwaitDescription(text)], store, AskDescription)
  {
  }

  /** The description is stored verbatim, or as "" for the skip token, and the
      wizard moves on to the date. */
  lemma DescriptionStep(check: PastCheck, sessions: map<UserId, Session>, store: Store,
                        user: UserId, text: string, now: Stamp)
    requires user in sessions && sessions[user].AwaitDescription?
    ensures var r := Step(check, sessions, store, user, text, now);
            && r.store == store && r.reply == AskDate
            && r.sessions[user] == AwaitDate(sessions[user].title, DescriptionOf(text))
  {
  }

  /** The date step advances exactly for a parseable date that is today or
      later; otherwise the session and store stay as they were. */
  lemma DateStep(check: PastCheck, sessions: map<UserId, Session>, store: Store,
                 user: UserId, text: string, now: Stamp)
    requires user in sessions && sessions[user].AwaitDate?
    ensures var r := Step(check, sessions, store, user, text, now);
            var s := sessions[user];
            && r.store == store
            && (r.reply == AskTime <==> ParseDate(text).Some? && !DateBefore(ParseDate(text).value, now.date))
            && (r.reply == AskTime ==> r.sessions == sessions[user := AwaitTime(s.title, s.description, text)])
            && (r.reply == BadDate <==> ParseDate(text).None?)
            && (r.reply != AskTime ==> r.sessions == sessions)
  {
  }

  /** A date equal to today's is accepted. */
  lemma TodayIsAccepted(check: PastCheck, sessions: map<UserId, Session>, store: Store,
                        user: UserId, text: string, now: Stamp)
    requires user in sessions && sessions[user].AwaitDate?
    requires ParseDate(text) == Some(now.date)
    ensures Step(check, sessions, store, user, text, now).reply == AskTime
  {
  }

  /** With the program's check, the time step refuses a time on today's date
      that is not after the current minute, accepts any time on another date,
      and on success stores exactly one record and ends the session. */
  lemma TimeStep(sessions: map<UserId, Session>, store: Store, user: UserId, text: string, now: Stamp)
    requires user in sessions && sessions[user].AwaitTime?
    requires ParseDate(sessions[user].date).Some? && ParseTime(text).Some?
    requires ValidStamp(now)
    ensures var r := Step(SameDayOnly, sessions, store, user, text, now);
            var s := sessions[user];
            var d := ParseDate(s.date).value;
            var t := ParseTime(text).value;
            && (r.reply == TimeInPast <==>
                  d == now.date
                  && (t.hour < now.time.hour || (t.hour == now.time.hour && t.minute <= now.time.minute)))
            && (r.reply == TimeInPast ==> r.sessions == sessions && r.store == store)
            && (r.reply != TimeInPast ==>
                  && r.reply == Created
                  && r.sessions == sessions - {user}
                  && r.store == Add(store, Reminder(user, s.title, s.description, s.date, text, false)))
  {
    ParsedTimeAtOrBefore(ParseTime(text).value, now.time);
  }

  /** A time the check refuses leaves the session and the store as they were. */
  lemma TimeStepRefuses(check: PastCheck, sessions: map<UserId, Session>, store: Store,
                        user: UserId, text: string, now: Stamp)
    requires user in sessions && sessions[user].AwaitTime?
    requires ParseDate(sessions[user].date).Some? && ParseTime(text).Some?
    requires TimeRejected(check, ParseDate(sessions[user].date).value, ParseTime(text).value, now)
    ensures Step(check, sessions, store, user, text, now) == Outcome(sessions, store, TimeInPast)
  {
  }

  // -----------------------------------------------------------------------
  // The invariant the wizard keeps

  /** A session at the time step holds a date that parses. */
  predicate SessionOk(s: Session) {
    s.AwaitTime? ==> ParseDate(s.date).Some?
  }

  predicate WellFormed(sessions: map<UserId, Session>, store: Store) {
    && FreshNext(store)
    && (forall u :: u in sessions ==> SessionOk(sessions[u]))
    && (forall id :: id in store.rows ==> RecordOk(store.rows[id]))
  }

  lemma StartPreservesWellFormed(sessions: map<UserId, Session>, store: Store, user: UserId)
    requires WellFormed(sessions, store)
    ensures WellFormed(StartSession(sessions, user), store)
  {
  }

  /** Every step keeps the sessions and the store well formed: collected dates
      parse, stored dates and times parse, and the next id stays fresh. */
  lemma StepPreservesWellFormed(check: PastCheck, sessions: map<UserId, Session>, store: Store,
                                user: UserId, text: string, now: Stamp)
    requires WellFormed(sessions, store)
    ensures var r := Step(check, sessions, store, user, text, now);
            WellFormed(r.sessions, r.store)
  {
    if user in sessions {
      var r := Step(check, sessions, store, user, text, now);
      match sessions[user]
      case AwaitTitle =>
        assert r.sessions == sessions[user := AwaitDescription(text)] && r.store == store;
      case AwaitDescription(title) =>
        assert r.sessions == sessions[user := AwaitDate(title, DescriptionOf(text))] && r.store == store;
      case AwaitDate(_, _) =>
        DateStepKeepsWellFormed(check, sessions, store, user, text, now);
      case AwaitTime(_, _, _) =>
        TimeStepKeepsWellFormed(check, sessions, store, user, text, now);
    }
  }

  lemma DateStepKeepsWellFormed(check: PastCheck, sessions: map<UserId, Session>, store: Store,
                                user: UserId, text: string, now: Stamp)
    requires WellFormed(sessions, store)
    requires user in sessions && sessions[user].AwaitDate?
    ensures var r := Step(check, sessions, store, user, text, now);
            WellFormed(r.sessions, r.store)
  {
    var r := Step(check, sessions, store, user, text, now);
    var s := sessions[user];
    if r.reply == AskTime {
      assert ParseDate(text).Some?;
      assert r.sessions == sessions[user := AwaitTime(s.title, s.description, text)];
    }
  }

  lemma TimeStepKeepsWellFormed(check: PastCheck, sessions: map<UserId, Session>, store: Store,
                                user: UserId, text: string, now: Stamp)
    requires WellFormed(sessions, store)
    requires user in sessions && sessions[user].AwaitTime?
    ensures var r := Step(check, sessions, store, user, text, now);
            WellFormed(r.sessions, r.store)
  {
    var r := Step(check, sessions, store, user, text, now);
    var s := sessions[user];
    if r.reply == Created {
      var row := Reminder(user, s.title, s.description, s.date, text, false);
      assert RecordOk(row);
      assert r.sessions == sessions - {user};
      CreatedKeepsWellFormed(sessions, store, user, row);
    }
  }

  lemma CreatedKeepsWellFormed(sessions: map<UserId, Session>, store: Store, user: UserId, row: Reminder)
    requires WellFormed(sessions, store) && RecordOk(row)
    ensures WellFormed(sessions - {user}, Add(store, row))
  {
    AddKeepsRecordsOk(store, row);
  }

  /** In a well-formed state the time step's second parse of the stored date
      cannot fail, so "bad time" means exactly that the time text is malformed. */
  lemma BadTimeMeansBadText(check: PastCheck, sessions: map<UserId, Session>, store: Store,
                            user: UserId, text: string, now: Stamp)
    requires WellFormed(sessions, store)
    requires user in sessions && sessions[user].AwaitTime?
    ensures Step(check, sessions, store, user, text, now).reply == BadTime <==> ParseTime(text).None?
  {
    assert SessionOk(sessions[user]);
  }

  // -----------------------------------------------------------------------
  // Whole runs

  /** The first three answers after "add reminder", a date included that is
      not before the day it is typed, bring the session to the time step. */
  lemma FirstThreeSteps(check: PastCheck, sessions: map<UserId, Session>, store: Store, user: UserId,
                        title: string, description: string, date: string, n1: Stamp, n2: Stamp, n3: Stamp)
    requires ParseDate(date).Some? && !DateBefore(ParseDate(date).value, n3.date)
    ensures var s0 := StartSession(sessions, user);
            var s1 := s0[user := AwaitDescription(title)];
            var s2 := s1[user := AwaitDate(title, DescriptionOf(description))];
            && Step(check, s0, store, user, title, n1) == Outcome(s1, store, AskDescription)
            && Step(check, s1, store, user, description, n2) == Outcome(s2, store, AskDate)
            && Step(check, s2, store, user, date, n3)
               == Outcome(s0[user := AwaitTime(title, DescriptionOf(description), date)], store, AskTime)
  {
    var s0 := StartSession(sessions, user);
    var s1 := s0[user := AwaitDescription(title)];
    var s2 := s1[user := AwaitDate(title, DescriptionOf(description))];
    TitleStep(check, s0, store, user, title, n1);
    DescriptionStep(check, s1, store, user, description, n2);
    DateStep(check, s2, store, user, date, n3);
    assert s2[user := AwaitTime(title, DescriptionOf(description), date)]
           == s0[user := AwaitTime(title, DescriptionOf(description), date)];
  }

  /** Four acceptable answers after "add reminder" store exactly one unsent
      reminder holding those answers and end the session. */
  lemma CompleteWizard(check: PastCheck, sessions: map<UserId, Session>, store: Store, user: UserId,
                       title: string, description: string, date: string, time: string,
                       n1: Stamp, n2: Stamp, n3: Stamp, n4: Stamp)
    requires ParseDate(date).Some? && !DateBefore(ParseDate(date).value, n3.date)
    requires ParseTime(time).Some? && !TimeRejected(check, ParseDate(date).value, ParseTime(time).value, n4)
    ensures Feed(check, Outcome(StartSession(sessions, user), store, AskTitle), user,
                 [Input(title, n1), Input(description, n2), Input(date, n3), Input(time, n4)])
            == Outcome(sessions - {user},
                       Add(store, Reminder(user, title, DescriptionOf(description), date, time, false)),
                       Created)
  {
    var desc := DescriptionOf(description);
    var s0 := StartSession(sessions, user);
    var s1 := s0[user := AwaitDescription(title)];
    var s2 := s1[user := AwaitDate(title, desc)];
    var s3 := s0[user := AwaitTime(title, desc, date)];
    var o4 := Outcome(sessions - {user}, Add(store, Reminder(user, title, desc, date, time, false)), Created);
    FirstThreeSteps(check, sessions, store, user, title, description, date, n1, n2, n3);
    assert Step(check, s3, store, user, time, n4) == o4 by {
      assert s3 - {user} == sessions - {user};
    }
    FeedFour(check, Outcome(s0, store, AskTitle), Outcome(s1, store, AskDescription),
             Outcome(s2, store, AskDate), Outcome(s3, store, AskTime), o4, user,
             Input(title, n1), Input(description, n2), Input(date, n3), Input(time, n4));
  }

  /** A time the check refuses at the end of the same conversation stores
      nothing and keeps every collected field, waiting for another time. */
  lemma RefusedAtTime(check: PastCheck, sessions: map<UserId, Session>, store: Store, user: UserId,
                      title: string, description: string, date: string, time: string,
                      n1: Stamp, n2: Stamp, n3: Stamp, n4: Stamp)
    requires ParseDate(date).Some? && !DateBefore(ParseDate(date).value, n3.date)
    requires ParseTime(time).Some? && TimeRejected(check, ParseDate(date).value, ParseTime(time).value, n4)
    ensures Feed(check, Outcome(StartSession(sessions, user), store, AskTitle), user,
                 [Input(title, n1), Input(description, n2), Input(date, n3), Input(time, n4)])
            == Outcome(StartSession(sessions, user)[user := AwaitTime(title, DescriptionOf(description), date)],
                       store, TimeInPast)
  {
    var desc := DescriptionOf(description);
    var s0 := StartSession(sessions, user);
    var s1 := s0[user := AwaitDescription(title)];
    var s2 := s1[user := AwaitDate(title, desc)];
    var s3 := s0[user := AwaitTime(title, desc, date)];
    FirstThreeSteps(check, sessions, store, user, title, description, date, n1, n2, n3);
    TimeStepRefuses(check, s3, store, user, time, n4);
    FeedFour(check, Outcome(s0, store, AskTitle), Outcome(s1, store, AskDescription),
             Outcome(s2, store, AskDate), Outcome(s3, store, AskTime), Outcome(s3, store, TimeInPast), user,
             Input(title, n1), Input(description, n2), Input(date, n3), Input(time, n4));
  }

  /** Four messages whose steps are known one by one. */
  lemma FeedFour(check: PastCheck, o0: Outcome, o1: Outcome, o2: Outcome, o3: Outcome, o4: Outcome,
                 user: UserId, i1: Input, i2: Input, i3: Input, i4: Input)
    requires Step(check, o0.sessions, o0.store, user, i1.text, i1.now) == o1
    requires Step(check, o1.sessions, o1.store, user, i2.text, i2.now) == o2
    requires Step(check, o2.sessions, o2.store, user, i3.text, i3.now) == o3
    requires Step(check, o3.sessions, o3.store, user, i4.text, i4.now) == o4
    ensures Feed(check, o0, user, [i1, i2, i3, i4]) == o4
  {
    FeedFirst(check, o0, user, i1, [i2, i3, i4]);
    FeedFirst(check, o1, user, i2, [i3, i4]);
    FeedFirst(check, o2, user, i3, [i4]);
    FeedFirst(check, o3, user, i4, []);
    assert [i1] + [i2, i3, i4] == [i1, i2, i3, i4];
    assert [i2] + [i3, i4] == [i2, i3, i4];
    assert [i3] + [i4] == [i3, i4];
    assert [i4] + [] == [i4];
  }

  lemma FeedFirst(check: PastCheck, o: Outcome, user: UserId, i: Input, rest: seq<Input>)
    ensures Feed(check, o, user, [i] + rest)
            == Feed(check, Step(check, o.sessions, o.store, user, i.text, i.now), user, rest)
  {
    assert ([i] + rest)[1..] == rest;
  }

  /** The example of a whole conversation: "Pay rent", "-", "01.01.2099",
      "09:00" store one unsent reminder with an empty description. */
  lemma PayRentExample(check: PastCheck, sessions: map<UserId, Session>, store: Store, user: UserId,
                       n1: Stamp, n2: Stamp, n3: Stamp, n4: Stamp)
    requires n3.date.year < 2099 && n4.date.year < 2099
    ensures Feed(check, Outcome(StartSession(sessions, user), store, AskTitle), user,
                 [Input("Pay rent", n1), Input("-", n2), Input("01.01.2099", n3), Input("09:00", n4)])
            == Outcome(sessions - {user},
                       Add(store, Reminder(user, "Pay rent", "", "01.01.2099", "09:00", false)),
                       Created)
  {
    PayRentTexts();
    CompleteWizard(check, sessions, store, user, "Pay rent", "-", "01.01.2099", "09:00", n1, n2, n3, n4);
  }

  lemma PayRentTexts()
    ensures ParseDate("01.01.2099") == Some(Date(2099, 1, 1))
    ensures ParseTime("09:00") == Some(Time(9, 0, 0, 0))
  {
    assert Dotted("01", "01", "2099") == "01.01.2099";
    SpelledDateParses("01", "01", "2099", Date(2099, 1, 1));
    assert Coloned("09", "00") == "09:00";
    SpelledTimeParses("09", "00", Time(9, 0, 0, 0));
  }

  // -----------------------------------------------------------------------
  // Reminders in the past

  /** The clock readings of the example below: the date is typed a minute
      before midnight, the time a minute after it. */
  const LateEvening := Stamp(Date(2024, 12, 25), Time(23, 59, 0, 0))
  const EarlyMorning := Stamp(Date(2024, 12, 26), Time(0, 1, 0, 0))

  function MidnightInputs(n1: Stamp, n2: Stamp): seq<Input> {
    [Input("Rent", n1), Input("-", n2), Input("25.12.2024", LateEvening), Input("10:00", EarlyMorning)]
  }

  lemma MidnightTexts()
    ensures ParseDate("25.12.2024") == Some(Date(2024, 12, 25))
    ensures ParseTime("10:00") == Some(Time(10, 0, 0, 0))
  {
    assert Dotted("25", "12", "2024") == "25.12.2024";
    SpelledDateParses("25", "12", "2024", Date(2024, 12, 25));
    assert Coloned("10", "00") == "10:00";
    SpelledTimeParses("10", "00", Time(10, 0, 0, 0));
  }

  /** The program's time check lets a past reminder through when midnight
      passes between the date step and the time step: the date was today
      when it was typed, is yesterday when the time arrives, and a date other
      than today is never checked again. */
  lemma PastReminderAcrossMidnight(sessions: map<UserId, Session>, store: Store, user: UserId,
                                   n1: Stamp, n2: Stamp)
    ensures Feed(SameDayOnly, Outcome(StartSession(sessions, user), store, AskTitle), user, MidnightInputs(n1, n2))
            == Outcome(sessions - {user},
                       Add(store, Reminder(user, "Rent", "", "25.12.2024", "10:00", false)),
                       Created)
    ensures ParseDate("25.12.2024") == Some(Date(2024, 12, 25))
    ensures ParseTime("10:00") == Some(Time(10, 0, 0, 0))
    ensures StampAtOrBefore(Stamp(Date(2024, 12, 25), Time(10, 0, 0, 0)), EarlyMorning)
  {
    MidnightTexts();
    CompleteWizard(SameDayOnly, sessions, store, user, "Rent", "-", "25.12.2024", "10:00",
                   n1, n2, LateEvening, EarlyMorning);
  }

  /** Comparing the whole date and time refuses the same conversation at its
      last step and keeps the session waiting for another time. */
  lemma MidnightRefusedByWholeStamp(sessions: map<UserId, Session>, store: Store, user: UserId,
                                    n1: Stamp, n2: Stamp)
    ensures Feed(WholeStamp, Outcome(StartSession(sessions, user), store, AskTitle), user, MidnightInputs(n1, n2))
            == Outcome(StartSession(sessions, user)[user := AwaitTime("Rent", "", "25.12.2024")], store, TimeInPast)
  {
    MidnightTexts();
    RefusedAtTime(WholeStamp, sessions, store, user, "Rent", "-", "25.12.2024", "10:00",
                  n1, n2, LateEvening, EarlyMorning);
  }

  /** Comparing the whole date and time, a stored reminder always lies strictly
      after the moment of the message that created it. */
  lemma WholeStampNeverStoresPast(sessions: map<UserId, Session>, store: Store, user: UserId,
                                  text: string, now: Stamp)
    ensures var r := Step(WholeStamp, sessions, store, user, text, now);
            r.reply == Created ==>
              var rec := r.store.rows[store.next];
              && ParseDate(rec.date).Some? && ParseTime(rec.time).Some?
              && !StampAtOrBefore(Stamp(ParseDate(rec.date).value, ParseTime(rec.time).value), now)
  {
  }

  /** The record's date and time parse and lie strictly after `t`. */
  predicate LiesAfter(rec: Reminder, t: Stamp) {
    RecordOk(rec) && !StampAtOrBefore(Stamp(ParseDate(rec.date).value, ParseTime(rec.time).value), t)
  }

  /** Message `k` of the run is the one that stores record `id`: the id is
      absent before that message and present after it. */
  predicate StoredBy(check: PastCheck, o: Outcome, user: UserId, inputs: seq<Input>, k: nat, id: nat)
    requires k < |inputs|
  {
    && id !in Feed(check, o, user, inputs[..k]).store.rows
    && id in Feed(check, o, user, inputs[..k + 1]).store.rows
  }

  /** Comparing the whole date and time, every reminder a run of messages
      stores was stored by one message of the run, and lies strictly after
      that message's clock reading, wherever midnight falls in the run. */
  lemma {:induction false} WholeStampRunStoresOnlyFuture(o: Outcome, user: UserId, inputs: seq<Input>)
    requires FreshNext(o.store)
    ensures var r := Feed(WholeStamp, o, user, inputs);
            forall id :: id in r.store.rows && id !in o.store.rows ==>
              exists k :: 0 <= k < |inputs| && StoredBy(WholeStamp, o, user, inputs, k, id)
                          && LiesAfter(r.store.rows[id], inputs[k].now)
    decreases |inputs|
  {
    if inputs != [] {
      var o1 := Step(WholeStamp, o.sessions, o.store, user, inputs[0].text, inputs[0].now);
      var r := Feed(WholeStamp, o, user, inputs);
      var rest := inputs[1..];
      assert r == Feed(WholeStamp, o1, user, rest);
      WholeStampRunStoresOnlyFuture(o1, user, rest);
      forall id | id in r.store.rows && id !in o.store.rows
        ensures exists k :: 0 <= k < |inputs| && StoredBy(WholeStamp, o, user, inputs, k, id)
                            && LiesAfter(r.store.rows[id], inputs[k].now)
      {
        if id in o1.store.rows {
          FirstMessageStores(o, user, inputs, id);
        } else {
          var k :| 0 <= k < |rest| && StoredBy(WholeStamp, o1, user, rest, k, id)
                   && LiesAfter(r.store.rows[id], rest[k].now);
          StoredByLater(WholeStamp, o, user, inputs, k, id);
          assert rest[k] == inputs[k + 1];
        }
      }
    }
  }

  /** A record the first message stores was stored by it, and with the whole
      comparison it lies after that message's clock reading. */
  lemma FirstMessageStores(o: Outcome, user: UserId, inputs: seq<Input>, id: nat)
    requires FreshNext(o.store) && inputs != [] && id !in o.store.rows
    requires id in Step(WholeStamp, o.sessions, o.store, user, inputs[0].text, inputs[0].now).store.rows
    ensures StoredBy(WholeStamp, o, user, inputs, 0, id)
    ensures LiesAfter(Feed(WholeStamp, o, user, inputs).store.rows[id], inputs[0].now)
  {
    var o1 := Step(WholeStamp, o.sessions, o.store, user, inputs[0].text, inputs[0].now);
    WholeStampNeverStoresPast(o.sessions, o.store, user, inputs[0].text, inputs[0].now);
    assert Feed(WholeStamp, o, user, inputs) == Feed(WholeStamp, o1, user, inputs[1..]);
    FeedFirst(WholeStamp, o, user, inputs[0], []);
    assert inputs[..1] == [inputs[0]] + [];
    assert inputs[..0] == [];
  }

  /** Message `k` of the rest of a run that stores `id` is message `k + 1` of the run. */
  lemma StoredByLater(check: PastCheck, o: Outcome, user: UserId, inputs: seq<Input>, k: nat, id: nat)
    requires inputs != [] && k < |inputs| - 1
    requires StoredBy(check, Step(check, o.sessions, o.store, user, inputs[0].text, inputs[0].now),
                      user, inputs[1..], k, id)
    ensures StoredBy(check, o, user, inputs, k + 1, id)
  {
    var rest := inputs[1..];
    FeedFirst(check, o, user, inputs[0], rest[..k]);
    FeedFirst(check, o, user, inputs[0], rest[..k + 1]);
    assert inputs[..k + 1] == [inputs[0]] + rest[..k];
    assert inputs[..k + 2] == [inputs[0]] + rest[..k + 1];
  }

  /** The state before any message: no sessions, an empty store. */
  lemma InitialWellFormed()
    ensures WellFormed(map[], Store(map[], 0))
  {
  }
}
